=== FILE: README.md ===
# Hall-booking admin panel — a Dafny model of its decision logic

The admin panel lets staff list hall bookings, approve or reject them, check
payment slips, and edit their own profile (name, picture, password). Nearly all
of it is calls into a document store, an auth provider and `fetch`. This
project models the decisions the pages make around those calls:

- **Bookings** (`bookings.dfy`): a booking row, how its status cell, its
  Approve/Reject buttons and its payment-slip cell are decided, and the local
  list update after a status change.
- **BookingQuery** (`query.dfy`): the listing query. A picked day becomes the
  half-open window `[start of day, start of next day)` on `date`. The query is
  always ordered by `date` in the chosen direction. The sort toggle and the
  refetch rule of the controls are here too.
- **Review** (`review.dfy`): the dashboard handlers (`fetchBookings`,
  `updateBookingStatus`, `handlePaymentVerification`, the approval e-mail
  helper, the slip modal).
- **ImageSize** (`image_size.dfy`): the canvas size `resizeAndCompressImage`
  computes, with `Math.round(a / b)` written as `(2a + b) / (2b)`.
- **Profile** (`profile.dfy`): loading the stored photo, saving a picture and
  saving the display name, each as a one-field merge write.
- **Password** (`password.dfy`): the change-password sequence, its e-mail
  helper, and the role-based Back button.
- **Common** (`common.dfy`): optional values, call outcomes, HTTP replies, and
  two predicates about the order of effects in a trace.

Each asynchronous handler is a pure function. It takes the page state and the
outcome of each external call (`Ok`/`Fail` for the store and auth calls, an
`HttpReply` for `fetch`). It returns the page state afterwards and the ordered
trace of effects: store writes, local updates, e-mail attempts, alerts and
navigation. Instants are integers in milliseconds, and day `d` starts at
`d * 86400000`.

A few behaviours of the pages are easy to miss, and the model keeps them:

- The resize branch tests `width > height` strictly, and it never enlarges a
  picture (`FitCases`, `FitNeverUpscales`).
- The hall drop-down and the search box never reach the listing query
  (`QueryIgnoresHallAndSearch`).
- A failed listing fetch keeps the previous list.
- `handlePaymentVerification` writes only the store. It does not update the
  local list, and no button in the page calls it.

## Model

| member | source | states |
|---|---|---|
| Bookings.DisplayStatus | admin/page.js:173 | the status cell is never blank: a set status is shown as it is and an unset or empty one reads "Pending" (StatusRowAfterUpdate relates it to the update) |
| Bookings.ApproveDisabled | admin/page.js:232 | the Approve button is disabled iff the row reads "Approved", for a loaded booking as for an updated one, and Reject is then enabled |
| Bookings.RejectDisabled | admin/page.js:239 | the Reject button is disabled iff the row reads "Rejected" |
| Bookings.SlipCell | admin/page.js:176-197 | the cell is empty iff there is no slip; a link or thumbnail points at the stored slip, and a download is named "payment-slip-<id>.pdf" (SlipCellClassifies says which slips are PDFs) |
| Bookings.SetStatus | admin/page.js:70-74 | the mapped list keeps its length and its ids in order; entries with the id get the new status with every other field kept; all other entries are unchanged |
| Bookings.FindAfterSetStatus | admin/page.js:70-74 | reading the booking back by id after the update finds it with the new status and its other fields; a lookup of any other id sees no change |
| Bookings.SetStatusIdempotent | admin/page.js:70-74 | applying the same status update twice gives the same list as applying it once |
| Bookings.StatusRowAfterUpdate | admin/page.js:173-239 | an unset status shows "Pending" with both buttons enabled; after approval the row shows "Approved", Approve is disabled and Reject enabled; after rejection the reverse |
| Bookings.SlipCellClassifies | admin/page.js:176-197 | a slip is offered as a PDF download iff it is "data:application/pdf" followed by anything; any other non-empty slip is a thumbnail; an absent or empty slip shows none |
| BookingQuery.BuildQuery | admin/page.js:22-44 | the query is on "bookings", ordered by "date" in the chosen direction, and carries clauses iff a day is picked (QueryWindow says which instants they select) |
| BookingQuery.QueryWindow | admin/page.js:22-44 | the query is on "bookings", ordered by "date" in the chosen direction; with no picked day it has no constraint; with day d it selects t iff start(d) <= t < start(d+1), a window exactly one day long, i.e. iff t falls in day d |
| BookingQuery.DayOfWindow | admin/page.js:25-36 | an instant lies in day d's half-open window iff floor(t / day length) == d |
| BookingQuery.QueryIgnoresHallAndSearch | admin/page.js:22-44 | controls that differ only in the hall choice and the search text build the same query |
| BookingQuery.ToggleSortOrder | admin/page.js:125-127 | the toggled order is always "asc" or "desc", and it differs from the old order when that was "asc" or "desc" |
| BookingQuery.ToggleTwice | admin/page.js:125-146 | toggling twice restores "asc" and "desc"; any other starting value ends at "desc"; every toggle flips the button label; SortLabel is the button label at admin/page.js:146 |
| BookingQuery.ApplyControl | admin/page.js:62-144 | the listing is refetched iff the event is not search typing; each event changes only its own control: typing only the search text, a hall pick only the hall, a date pick only the day, a toggle only the order ; the changed control takes the event's value: the typed text, the picked hall, the picked day, or the toggled order (ControlEffects gives the effect on the query) |
| BookingQuery.ControlEffects | admin/page.js:132-144 | typing a search is the only control change that does not refetch; hall picks leave the query as it was; a toggle always changes it; a date pick changes it iff the day changes |
| Review.FetchBookings | admin/page.js:19-59 | exactly one query, built from the controls, is run; its rows replace the list; a failure keeps the old list; loading is off afterwards and nothing else changes |
| Review.FirstFetch | admin/page.js:9-59 | the page opens with no filter and newest first, so the first fetch runs the unfiltered query in descending date order; a failed first fetch leaves the table empty; no slip is selected |
| Review.BookingMailReport | admin/page.js:101-122 | an e-mail counts as delivered only on an ok reply, and a network failure is reported as not sent with no reason (BookingMailReportCases gives the exact split) |
| Review.BookingMailReportCases | admin/page.js:101-122 | the approval e-mail counts as delivered iff the reply is ok and its body is empty or JSON; a refusal by the endpoint carries a non-empty reason |
| Review.UpdateBookingStatus | admin/page.js:65-82 | the store write comes first; a failed write changes nothing and is the whole trace; otherwise the local update follows, and an e-mail is attempted iff the new status is "Approved", after the local update; no alert or query is produced |
| Review.MailFailureKeepsApproval | admin/page.js:65-121 | whatever the e-mail endpoint answers, an approval that reached the store leaves the same page state, and the booking reads back as "Approved" with its other fields intact |
| Review.ApproveAndRejectTraces | admin/page.js:229-242 | approving a booking writes, updates the row, and makes exactly one e-mail attempt carrying the booking, its hall, date and times; rejecting writes and updates but never mails; ApproveCall and RejectCall are the argument lists of the two buttons |
| Review.StatusUpdateIdempotent | admin/page.js:65-82 | repeating a successful status update leaves the page state as after the first |
| Review.HandlePaymentVerification | admin/page.js:85-98 | the only state change is clearing the verifying flag (the list is untouched); the trace is the paymentStatus write, then the success or failure alert |
| Review.PaymentAlert | admin/page.js:91 | the success alert is one of the two fixed messages "Payment has been approved." and "Payment has been rejected." (PaymentAlertChoice says which) |
| Review.PaymentAlertChoice | admin/page.js:91 | the success alert says "approved" iff the status is "verified"; every other status is announced as rejected |
| Review.ClickSlip | admin/page.js:187-190 | a click changes at most the selected image, and a changed selection is the clicked booking's non-empty slip (SlipModal relates it to the rows showing the modal) |
| Review.CloseModal | admin/page.js:202 | closing clears the selected image and changes nothing else |
| Review.SlipModal | admin/page.js:186-222 | clicking a thumbnail opens the modal in exactly the rows holding that same slip; clicking a PDF link changes nothing; closing hides the modal in every row; two rows showing it hold the same slip; ModalShownFor is the test at admin/page.js:200 |
| ImageSize.RoundDiv | admin/profile/page.js:62 | the result is the nearest integer to a / b, with halves rounding up: r - 1/2 <= a/b < r + 1/2 |
| ImageSize.Fit | admin/profile/page.js:60-70 | a picture within both caps is kept as it is, and a changed picture has one side exactly at its cap (FitCases gives the exact size in each branch; FitNeverUpscales, FitKeepsAspect and FitWithinSquareCap state the rest) |
| ImageSize.FitCases | admin/profile/page.js:60-70 | a strictly wider picture over the width cap becomes (maxWidth, round(height x maxWidth / width)); a square or taller one over the height cap becomes (round(width x maxHeight / height), maxHeight), halves rounding up as `Math.round` does; any other picture is unchanged |
| ImageSize.FitNeverUpscales | admin/profile/page.js:60-70 | neither side of the result exceeds the original side |
| ImageSize.FitKeepsAspect | admin/profile/page.js:60-70 | the cross products new-height x old-width and old-height x new-width differ by at most half the longer original side |
| ImageSize.FitWithinSquareCap | admin/profile/page.js:60-70 | with equal caps, as on the profile screen (200, 200), both output sides are within the cap for every input size |
| ImageSize.UnequalCapsCanExceed | admin/profile/page.js:60-70 | with unequal caps a too-tall picture that fits the width cap is returned unchanged (250 x 200 with caps 300 x 100) |
| ImageSize.FitExamples | admin/profile/page.js:60-70 | a square above the 200 cap becomes 200 x 200, and 400 x 200 becomes 200 x 100 |
| Profile.Merge | admin/profile/page.js:97 | a merge write gives the written fields their new values, keeps every other stored field, and creates a missing document |
| Profile.FetchUserProfile | admin/profile/page.js:31-44 | with a user, their document is read; a found document sets the photo to its picture, or to "" when that is missing or empty; a missing document or failed read keeps the photo; nothing else changes |
| Profile.Mount | admin/profile/page.js:16-44 | without a user the screen navigates to sign-in and changes nothing; with one, the user's document is read, the name field takes the account's name (or ""), the upload flag is kept, and the photo becomes the stored picture, "" when the document has none, or stays as it was when the read finds no document or fails |
| Profile.MountFromStart | admin/profile/page.js:11-44 | on the fresh screen the shown photo after mounting is the stored picture, and "" whenever there is none to show (no user, no document, a failed read, an empty field); the upload flag is clear |
| Profile.HandleImageChange | admin/profile/page.js:89-106 | no file or no user: no effect at all; with a user and a picture the canvas is drawn and the write is made whatever its outcome; the canvas is drawn at the capped size (within 200 x 200) before the only write, which stores just the profile picture for the current user; the photo changes only on success; the upload flag ends clear; the last effect is the matching alert, and the success alert appears iff a picture was written successfully |
| Profile.HandleSave | admin/profile/page.js:109-132 | no user: a single alert and no call; with a user the auth-profile update is always made, and the store write is made whenever that update succeeds; the auth-profile update precedes the store write, which stores only the display name; the dashboard opens iff both succeed; a failure ends with the failure alert, and the success alert appears iff both calls succeed; the form is unchanged |
| Profile.SavesDoNotClobber | admin/profile/page.js:97-123 | saving the name and then a picture leaves the document with both new values and every other field as before |
| Profile.ImageRoundTrip | admin/profile/page.js:38-98 | a saved picture is the photo the screen shows when it reads the document back |
| Password.PasswordMailReport | admin/editpassword/page.js:63-89 | the confirmation counts as delivered only on an ok reply with a JSON body, and a network failure is reported as not sent with no reason (PasswordMailReportCases gives the exact split) |
| Password.PasswordMailReportCases | admin/editpassword/page.js:63-89 | the confirmation counts as delivered iff the reply is ok with a JSON body; an ok reply that is empty or not JSON is reported as a failure |
| Password.ChangePassword | admin/editpassword/page.js:37-89 | no user: no call and no error; with a user re-authentication is always attempted, and the password update is made whenever it succeeds; re-authentication with the user's e-mail and current password precedes the update, and the update precedes the e-mail; the e-mail is attempted iff both succeed, and goes to the user's address with the fixed subject and message; the success alert appears iff both succeed; the error is the fixed message iff either fails and "" otherwise; a failed e-mail adds the warning; loading ends false |
| Password.SuccessfulChange | admin/editpassword/page.js:37-89 | when re-authentication and the update both succeed, the error is cleared, loading ends, and the trace is exactly: re-authenticate, update, confirmation to the user's address with the fixed subject and message, the warning iff that e-mail failed, then the success alert |
| Password.MailFailureIsNotAnError | admin/editpassword/page.js:37-89 | after a successful update the outcome state is the same whatever the e-mail endpoint answered; a failed e-mail adds the warning alert before the success alert |
| Password.WrongPasswordStopsEarly | admin/editpassword/page.js:44-57 | a failed re-authentication is the whole trace: no update, no e-mail, the fixed error, loading off |
| Password.FetchUserRole | admin/editpassword/page.js:18-35 | a found document sets the role to its role field, or "" when that is missing or empty; otherwise the role is kept; nothing else changes |
| Password.HandleBack | admin/editpassword/page.js:92-98 | Back goes to the admin account page iff the role is "admin", and to the dashboard otherwise, including the empty role |
| Password.BackAfterRoleLoad | admin/editpassword/page.js:18-98 | after loading the role, Back goes to the admin page iff the stored document has role "admin"; a missing document or role goes to the dashboard |

## Left out

- Time zones, daylight saving time and date parsing are not modelled. A picked day is a day number, and its window is `[d * 86400000, (d + 1) * 86400000)`. The page parses the picked "YYYY-MM-DD" with `new Date`, which reads it as UTC midnight, and then calls `setHours(0, 0, 0, 0)`, which moves to local midnight (admin/page.js:26-31). West of UTC that local midnight is on the previous day, so the page queries the day before the one picked. The day `d` in `QueryWindow` is therefore the day the page computes, which is not always the day the admin picked. The ISO formatting of listed dates (admin/page.js:50) is also left out: a listed booking's date is already the display string.
- How the store executes the query is left out: the order of bookings with equal dates belongs to the store library.
- The page's own mapping of store documents to rows is left out (admin/page.js:47-51); a fetch result is already a list of rows. In that mapping the document's fields are spread after `id: doc.id`, so a stored `id` field overrides the document id that a later status update writes to; the model takes every row's `id` to be its document id.
- Stale listing replies are left out. The fetching effect (admin/page.js:18-62) has no cleanup and no request token, so a slow reply to an earlier query can arrive after a later one and replace its rows; the model applies each reply to the state it was issued from.
- Reading the file, loading the image, drawing on the canvas and JPEG encoding at quality 0.7 are left out (admin/profile/page.js:48-84). A picked file is either unreadable or a picture of a known size whose encoded data URL is given.
- ImageSize.RoundDiv: models `Math.round` of the exact quotient. The rounding error of the floating-point division is not modelled.
- ImageSize.Fit: takes the caps as natural numbers. Negative caps, which the page never passes, are not modelled.
- HTTP request bodies, `fetch` and JSON parsing are left out. A reply is reduced to its ok flag and a body that is empty, malformed, or JSON with an optional message.
- Console logging is left out: the traces hold only store, auth, e-mail, alert and navigation effects.
- Rendering is left out, apart from the per-row rules above: styling, the table layout and the "Uploading..."/"Changing..." labels.
- The profile screen's Back button always goes to "/admin/my-account" (admin/profile/page.js:162). It is a constant route with no decision, so it is not modelled.
- admin/my-account/page.js is not part of this model. It subscribes to the auth state and displays the fetched profile.

=== FILE: bookings.dfy ===
/** A booking as the review table holds it, the rules that decide how one row
    is shown (status label, button enablement, payment-slip rendering), and
    the local status update the table applies after a successful store write. */
module Bookings {
  import opened Common

  const Pending := "Pending"
  const Approved := "Approved"
  const Rejected := "Rejected"
  const PdfPrefix := "data:application/pdf"

  /** One entry of the table. `date` is the day already formatted for display;
      `status` and `paymentStatus` are absent until an admin sets them, and
      `paymentSlip` is an inline data URL when the booker uploaded one. */
  datatype Booking = Booking(
    id: string,
    name: string,
    email: string,
    hall: string,
    date: string,
    startTime: string,
    endTime: string,
    status: Option<string>,
    paymentStatus: Option<string>,
    totalFee: int,
    paymentSlip: Option<string>)

  /** The text of the status cell: never blank, a set status shown as it is,
      and an unset (or empty) status read as "Pending". */
  function DisplayStatus(b: Booking): (r: string)
    ensures r != ""
    ensures Truthy(b.status) ==> r == b.status.value
    ensures !Truthy(b.status) ==> r == Pending
  {
    OrElse(b.status, Pending)
  }

  /** The Approve button is disabled exactly on an already approved booking,
      that is, exactly when its row reads "Approved"; its Reject button then
      stays enabled. */
  function ApproveDisabled(b: Booking): (r: bool)
    ensures r <==> DisplayStatus(b) == Approved
    ensures r ==> !RejectDisabled(b)
  {
    b.status == Some(Approved)
  }

  /** The Reject button is disabled exactly on an already rejected booking,
      that is, exactly when its row reads "Rejected". */
  function RejectDisabled(b: Booking): (r: bool)
    ensures r <==> DisplayStatus(b) == Rejected
  {
    b.status == Some(Rejected)
  }

  /** How the payment-slip cell renders. */
  datatype SlipView =
    | NoSlip                                   // "No payment slip uploaded"
    | PdfLink(href: string, fileName: string)  // a download link
    | Thumbnail(src: string)                   // a clickable image preview

  /** The cell is empty exactly when there is no slip; a link or thumbnail
      always points at the stored slip itself, and a download is named after
      the booking. */
  function SlipCell(b: Booking): (r: SlipView)
    ensures r.NoSlip? <==> !Truthy(b.paymentSlip)
    ensures r.PdfLink? ==> r.href == b.paymentSlip.value && r.fileName == "payment-slip-" + b.id + ".pdf"
    ensures r.Thumbnail? ==> r.src == b.paymentSlip.value
  {
    if !Truthy(b.paymentSlip) then NoSlip
    else if StartsWith(b.paymentSlip.value, PdfPrefix)
    then PdfLink(b.paymentSlip.value, "payment-slip-" + b.id + ".pdf")
    else Thumbnail(b.paymentSlip.value)
  }

  /** The slip cell offers a PDF download exactly when the slip is the PDF
      data-URL prefix followed by anything, a thumbnail for every other
      non-empty slip, and nothing otherwise. */
  lemma SlipCellClassifies(b: Booking)
    ensures SlipCell(b).PdfLink? <==> exists rest :: b.paymentSlip == Some(PdfPrefix + rest)
    ensures SlipCell(b).Thumbnail? <==>
              Truthy(b.paymentSlip) && !exists rest :: b.paymentSlip == Some(PdfPrefix + rest)
    ensures SlipCell(b).NoSlip? <==> b.paymentSlip.None? || b.paymentSlip == Some("")
    ensures SlipCell(b).PdfLink? ==> SlipCell(b).href == b.paymentSlip.value
    ensures SlipCell(b).Thumbnail? ==> SlipCell(b).src == b.paymentSlip.value
  {
    if b.paymentSlip.Some? {
      var s := b.paymentSlip.value;
      if StartsWith(s, PdfPrefix) {
        assert s == PdfPrefix + s[|PdfPrefix|..];
      }
      if exists rest :: b.paymentSlip == Some(PdfPrefix + rest) {
        var rest :| b.paymentSlip == Some(PdfPrefix + rest);
        assert s[..|PdfPrefix|] == PdfPrefix;
      }
    }
  }

  /** The list after `setBookings` maps the new status over it: the entry (or
      entries) carrying `id` get `status`, everything else is kept. */
  function SetStatus(list: seq<Booking>, id: string, status: string): (r: seq<Booking>)
    ensures |r| == |list|
    ensures forall i :: 0 <= i < |list| ==> r[i].id == list[i].id
    ensures forall i :: 0 <= i < |list| && list[i].id == id ==> r[i].status == Some(status)
    ensures forall i :: 0 <= i < |list| && list[i].id != id ==> r[i] == list[i]
    ensures forall i :: 0 <= i < |list| ==> r[i].(status := list[i].status) == list[i]
  {
    if list == [] then []
    else
      var head := if list[0].id == id then list[0].(status := Some(status)) else list[0];
      [head] + SetStatus(list[1..], id, status)
  }

  /** The first entry carrying `id`, as a lookup by identifier would find it. */
  function Find(list: seq<Booking>, id: string): (r: Option<Booking>)
    ensures r.Some? ==> r.value in list && r.value.id == id
    ensures r.None? ==> forall i :: 0 <= i < |list| ==> list[i].id != id
  {
    if list == [] then None
    else if list[0].id == id then Some(list[0])
    else Find(list[1..], id)
  }

  /** Reading an entry back after the update: the updated booking is found
      with the new status and every other field as before, and a lookup of
      any other identifier sees no change. */
  lemma {:induction false} FindAfterSetStatus(list: seq<Booking>, id: string, status: string, other: string)
    ensures Find(SetStatus(list, id, status), id) ==
              (if Find(list, id).Some? then Some(Find(list, id).value.(status := Some(status))) else None)
    ensures other != id ==> Find(SetStatus(list, id, status), other) == Find(list, other)
  {
    if list != [] {
      FindAfterSetStatus(list[1..], id, status, other);
      assert SetStatus(list, id, status)[1..] == SetStatus(list[1..], id, status);
    }
  }

  /** Setting the same status twice is the same as setting it once. */
  lemma SetStatusIdempotent(list: seq<Booking>, id: string, status: string)
    ensures SetStatus(SetStatus(list, id, status), id, status) == SetStatus(list, id, status)
  {
  }

  /** A booking never reviewed shows "Pending" with both buttons enabled; once
      approved it shows "Approved", Approve is disabled and Reject is enabled;
      once rejected the other way round. */
  lemma StatusRowAfterUpdate(list: seq<Booking>, id: string, i: int)
    requires 0 <= i < |list| && list[i].id == id
    ensures list[i].status.None? ==>
              DisplayStatus(list[i]) == Pending && !ApproveDisabled(list[i]) && !RejectDisabled(list[i])
    ensures var b := SetStatus(list, id, Approved)[i];
              DisplayStatus(b) == Approved && ApproveDisabled(b) && !RejectDisabled(b)
    ensures var b := SetStatus(list, id, Rejected)[i];
              DisplayStatus(b) == Rejected && !ApproveDisabled(b) && RejectDisabled(b)
  {
  }
}

=== FILE: common.dfy ===
/** Definitions shared by the three admin screens: optional values, the
    outcome of a call into a collaborator the model does not see (document
    store, auth provider, `fetch`), the shape of an HTTP reply, and two
    predicates about the order of effects in a handler's trace. */
module Common {

  datatype Option<+T> = None | Some(value: T)

  /** Whether an awaited external call resolved (Ok) or rejected (Fail). */
  datatype Outcome = Ok | Fail

  /** The body of an HTTP reply as a page reads it: nothing, text that is not
      JSON, or a JSON object with an optional `message` field. */
  datatype Body = EmptyBody | Malformed | Json(message: Option<string>)

  /** A `fetch` either rejects (network failure) or yields a reply. */
  datatype HttpReply = NetworkError | Reply(ok: bool, body: Body)

  /** What a best-effort e-mail helper concluded. The helpers never raise:
      `reason` is the message of the error the helper itself threw, or None
      for an error raised by the runtime (network, JSON parsing). */
  datatype MailReport = Sent | NotSent(reason: Option<string>)

  /** A user document of the store, reduced to its string fields. */
  type Doc = map<string, string>

  /** The result of reading one document. */
  datatype Read = ReadFailed | Missing | Found(doc: Doc)

  /** JavaScript truthiness of an optional string: undefined and "" are falsy. */
  predicate Truthy(x: Option<string>)
  {
    x.Some? && x.value != ""
  }

  /** JavaScript's `x || fallback` on an optional string. */
  function OrElse(x: Option<string>, fallback: string): string
  {
    if Truthy(x) then x.value else fallback
  }

  /** The field `key` of a document, absent when the document lacks it. */
  function Field(doc: Doc, key: string): Option<string>
  {
    if key in doc then Some(doc[key]) else None
  }

  /** `String.prototype.startsWith`. */
  predicate StartsWith(s: string, prefix: string)
  {
    |prefix| <= |s| && s[..|prefix|] == prefix
  }

  /** Some effect of the trace satisfies `p`. */
  ghost predicate Occurs<E>(trace: seq<E>, p: E -> bool)
  {
    exists i | 0 <= i < |trace| :: p(trace[i])
  }

  /** Every effect satisfying `q` comes after some effect satisfying `p`. */
  ghost predicate Precedes<E>(trace: seq<E>, p: E -> bool, q: E -> bool)
  {
    forall j | 0 <= j < |trace| && q(trace[j]) :: exists i | 0 <= i < j :: p(trace[i])
  }
}

=== FILE: image_size.dfy ===
/** The dimension arithmetic of `resizeAndCompressImage`: the canvas size an
    uploaded picture is redrawn at before it is encoded. */
module ImageSize {

  /** The profile screen's caps. */
  const ProfileCap: nat := 200

  datatype Size = Size(width: nat, height: nat)

  /** `Math.round(a / b)` for a non-negative quotient: the nearest integer,
      halves rounding up. */
  function RoundDiv(a: nat, b: nat): (r: nat)
    requires b > 0
    ensures 2 * (r * b) <= 2 * a + b < 2 * (r * b) + 2 * b
  {
    (2 * a + b) / (2 * b)
  }

  /** The new canvas size. The width branch is taken only for a strictly
      wider picture, and a side is scaled only when it exceeds its cap. A
      picture within both caps is kept, and a changed one has a side exactly
      at its cap. */
  function Fit(s: Size, maxWidth: nat, maxHeight: nat): (r: Size)
    ensures s.width <= maxWidth && s.height <= maxHeight ==> r == s
    ensures r != s ==> r.width == maxWidth || r.height == maxHeight
  {
    if s.width > s.height then
      if s.width > maxWidth then Size(maxWidth, RoundDiv(s.height * maxWidth, s.width)) else s
    else
      if s.height > maxHeight then Size(RoundDiv(s.width * maxHeight, s.height), maxHeight) else s
  }

  function Abs(x: int): nat
  {
    if x < 0 then -x else x
  }

  function Max(a: nat, b: nat): nat
  {
    if a < b then b else a
  }

  /** What `Fit` does branch by branch: a strictly wider picture over the
      width cap gets that width, a square or taller one over the height cap
      gets that height, and any other picture is left as it is. */
  lemma FitCases(s: Size, maxWidth: nat, maxHeight: nat)
    ensures s.width > s.height && s.width > maxWidth ==>
              Fit(s, maxWidth, maxHeight) == Size(maxWidth, RoundDiv(s.height * maxWidth, s.width))
    ensures s.width <= s.height && s.height > maxHeight ==>
              Fit(s, maxWidth, maxHeight) == Size(RoundDiv(s.width * maxHeight, s.height), maxHeight)
    ensures (s.width > s.height && s.width <= maxWidth) || (s.width <= s.height && s.height <= maxHeight) ==>
              Fit(s, maxWidth, maxHeight) == s
  {
  }

  /** The picture is never enlarged: neither side grows. */
  lemma {:induction false} FitNeverUpscales(s: Size, maxWidth: nat, maxHeight: nat)
    ensures Fit(s, maxWidth, maxHeight).width <= s.width
    ensures Fit(s, maxWidth, maxHeight).height <= s.height
  {
    if s.width > s.height && s.width > maxWidth {
      ScaledSideBound(s.height, maxWidth, s.width);
    } else if s.width <= s.height && s.height > maxHeight {
      ScaledSideBound(s.width, maxHeight, s.height);
    }
  }

  /** round(x * c / w) <= x and <= c when c < w. */
  lemma ScaledSideBound(x: nat, c: nat, w: nat)
    requires c < w
    ensures RoundDiv(x * c, w) <= x
    ensures x <= w ==> RoundDiv(x * c, w) <= c
  {
    var r := RoundDiv(x * c, w);
    ScaleBelow(x, c, w);
    assert (x + 1) * w == x * w + w;
    LessByFactor(r, x + 1, w);
    if x <= w {
      MulMono(x, w, c);
      assert (c + 1) * w == c * w + w;
      LessByFactor(r, c + 1, w);
    }
  }

  lemma ScaleBelow(x: nat, c: nat, w: nat)
    requires c < w
    ensures x * c + x <= x * w
  {
    assert x * w == x * c + x * (w - c);
    MulMono(1, w - c, x);
  }

  lemma MulMono(a: nat, b: nat, k: nat)
    requires a <= b
    ensures a * k <= b * k
  {
  }

  lemma LessByFactor(a: nat, b: nat, k: nat)
    requires a * k < b * k
    ensures a < b
  {
  }

  /** The aspect ratio is kept up to rounding: the cross products
      `new height * old width` and `old height * new width` differ by at
      most half the longer original side. */
  lemma FitKeepsAspect(s: Size, maxWidth: nat, maxHeight: nat)
    ensures var r := Fit(s, maxWidth, maxHeight);
            2 * Abs(r.height * s.width - s.height * r.width) <= Max(s.width, s.height)
  {
    if s.width > s.height && s.width > maxWidth {
      assert Fit(s, maxWidth, maxHeight) == Size(maxWidth, RoundDiv(s.height * maxWidth, s.width));
    } else if s.width <= s.height && s.height > maxHeight {
      assert Fit(s, maxWidth, maxHeight) == Size(RoundDiv(s.width * maxHeight, s.height), maxHeight);
    } else {
      assert Fit(s, maxWidth, maxHeight) == s;
    }
  }

  /** With equal caps, as on the profile screen, both output sides are
      within the cap for every input size. */
  lemma {:induction false} FitWithinSquareCap(s: Size, cap: nat)
    ensures Fit(s, cap, cap).width <= cap && Fit(s, cap, cap).height <= cap
  {
    if s.width > s.height && s.width > cap {
      ScaledSideBound(s.height, cap, s.width);
    } else if s.width <= s.height && s.height > cap {
      ScaledSideBound(s.width, cap, s.height);
    }
  }

  /** With unequal caps the height can stay above its cap: a picture that
      fits the width cap is returned unchanged even when it is too tall. */
  lemma UnequalCapsCanExceed()
    ensures Fit(Size(250, 200), 300, 100) == Size(250, 200)
  {
  }

  /** A square picture over the cap becomes a cap-by-cap square, and the
      400 x 200 picture of the profile screen becomes 200 x 100. */
  lemma FitExamples(n: nat)
    ensures n > ProfileCap ==> Fit(Size(n, n), ProfileCap, ProfileCap) == Size(ProfileCap, ProfileCap)
    ensures Fit(Size(400, 200), ProfileCap, ProfileCap) == Size(200, 100)
  {
    if n > ProfileCap {
      var r := RoundDiv(n * ProfileCap, n);
      LessByFactor(r, ProfileCap + 1, n);
      LessByFactor(ProfileCap - 1, r, n);
    }
  }
}

=== FILE: password.dfy ===
/** The change-password screen: re-authenticate, commit the new password,
    send a best-effort confirmation e-mail, and route the Back button by the
    role stored in the user's document. */
module Password {
  import opened Common

  const FailureMessage := "Failed to change password. Please try again."
  const SuccessAlert := "Password changed successfully! A confirmation email has been sent."
  const MailWarning := "Password changed successfully, but there was an issue sending the confirmation email."
  const MailSubject := "Password Change Confirmation"
  const MailMessage := "Your password has been successfully changed. If you did not request this change, please contact support immediately."

  const AdminHome := "/admin/my-account"
  const UserHome := "/dashboard"

  /** The signed-in account; only its e-mail address is used here. */
  datatype User = User(uid: string, email: string)

  /** The screen's state. */
  datatype Form = Form(currentPassword: string, newPassword: string, loading: bool, error: string, role: string)

  const InitialForm := Form("", "", false, "", "")

  datatype Effect =
    | ReadRole(uid: string)
    | Reauthenticate(email: string, password: string)
    | UpdatePassword(newPassword: string)
    | SendConfirmation(email: string, subject: string, message: string, report: MailReport)
    | Alert(message: string)
    | Navigate(route: string)

  datatype Step = Step(after: Form, trace: seq<Effect>)

  /** `sendPasswordChangeEmail`: a non-ok reply is read as JSON and turned
      into an error carrying its message or "Error sending email"; an ok
      reply is read as JSON too, so an unreadable body is a failure even
      then. Every failure is caught inside. */
  function PasswordMailReport(reply: HttpReply): (r: MailReport)
    ensures r.Sent? ==> reply.Reply? && reply.ok && reply.body.Json?
    ensures reply.NetworkError? ==> r == NotSent(None)
  {
    match reply
    case NetworkError => NotSent(None)
    case Reply(ok, body) =>
      match body
      case Json(m) => if ok then Sent else NotSent(Some(OrElse(m, "Error sending email")))
      case _ => NotSent(None)
  }

  /** The confirmation counts as delivered exactly for an ok reply with a JSON
      body: an ok reply that is empty or not JSON is reported as a failure. */
  lemma PasswordMailReportCases(reply: HttpReply)
    ensures PasswordMailReport(reply).Sent? <==> reply.Reply? && reply.ok && reply.body.Json?
    ensures reply.Reply? && reply.ok && !reply.body.Json? ==> PasswordMailReport(reply) == NotSent(None)
  {
  }

  /** `handleChangePassword`. With no user nothing is called. Otherwise
      re-authentication comes first; only its success leads to the password
      update, and only the update's success to the confirmation e-mail,
      whose failure adds a warning but never an error. Either call failing
      sets the one fixed error message. Loading is off at the end of every
      path and the password fields are left as typed. */
  function ChangePassword(f: Form, user: Option<User>, reauth: Outcome, update: Outcome, reply: HttpReply): (r: Step)
    ensures !r.after.loading
    ensures r.after.currentPassword == f.currentPassword && r.after.newPassword == f.newPassword
    ensures r.after.role == f.role
    ensures user.None? ==> r.trace == [] && r.after.error == ""
    ensures user.Some? ==> Reauthenticate(user.value.email, f.currentPassword) in r.trace
    ensures user.Some? && reauth.Ok? ==> UpdatePassword(f.newPassword) in r.trace
    ensures r.after.error == (if user.Some? && (reauth.Fail? || update.Fail?) then FailureMessage else "")
    ensures forall e | e in r.trace && e.Reauthenticate? ::
              user.Some? && e == Reauthenticate(user.value.email, f.currentPassword)
    ensures forall e | e in r.trace && e.UpdatePassword? :: reauth.Ok? && e.newPassword == f.newPassword
    ensures forall e | e in r.trace && e.SendConfirmation? :: reauth.Ok? && update.Ok?
    ensures forall e | e in r.trace && e.SendConfirmation? ::
              user.Some? && e == SendConfirmation(user.value.email, MailSubject, MailMessage, PasswordMailReport(reply))
    ensures Alert(SuccessAlert) in r.trace <==> user.Some? && reauth.Ok? && update.Ok?
    ensures Precedes(r.trace, (e: Effect) => e.Reauthenticate?, (e: Effect) => e.UpdatePassword?)
    ensures Precedes(r.trace, (e: Effect) => e.UpdatePassword?, (e: Effect) => e.SendConfirmation?)
    ensures Occurs(r.trace, (e: Effect) => e.SendConfirmation?) <==> user.Some? && reauth.Ok? && update.Ok?
    ensures user.Some? && reauth.Ok? && update.Ok? ==>
              |r.trace| >= 1 && r.trace[|r.trace| - 1] == Alert(SuccessAlert)
    ensures Alert(MailWarning) in r.trace <==>
              user.Some? && reauth.Ok? && update.Ok? && PasswordMailReport(reply).NotSent?
  {
    var f0 := f.(loading := true, error := "");
    if user.None? then Step(f0.(loading := false), [])
    else
      var email := user.value.email;
      var check := Reauthenticate(email, f.currentPassword);
      if reauth.Fail? then Step(f0.(loading := false, error := FailureMessage), [check])
      else
        var commit := UpdatePassword(f.newPassword);
        if update.Fail? then
          var trace := [check, commit];
          assert trace[0].Reauthenticate?;
          Step(f0.(loading := false, error := FailureMessage), trace)
        else
          var report := PasswordMailReport(reply);
          var mail := SendConfirmation(email, MailSubject, MailMessage, report);
          var trace := [check, commit, mail] + (if report.NotSent? then [Alert(MailWarning)] else []) + [Alert(SuccessAlert)];
          assert trace[0].Reauthenticate? && trace[1].UpdatePassword? && trace[2].SendConfirmation?;
          Step(f0.(loading := false), trace)
  }

  /** A password change that got past the update ends without an error and
      with the success alert, whatever the e-mail endpoint answered; the
      only difference a failed e-mail makes is the extra warning before it. */
  lemma MailFailureIsNotAnError(f: Form, u: User, reply: HttpReply)
    ensures var r := ChangePassword(f, Some(u), Ok, Ok, reply);
            r.after.error == "" && r.after == ChangePassword(f, Some(u), Ok, Ok, Reply(true, Json(None))).after
    ensures PasswordMailReport(reply).NotSent? ==>
              ChangePassword(f, Some(u), Ok, Ok, reply).trace[3..] == [Alert(MailWarning), Alert(SuccessAlert)]
  {
    SuccessfulChange(f, u, reply);
    SuccessfulChange(f, u, Reply(true, Json(None)));
  }

  /** The whole outcome of a change whose re-authentication and update both
      succeed. */
  lemma SuccessfulChange(f: Form, u: User, reply: HttpReply)
    ensures var report := PasswordMailReport(reply);
            ChangePassword(f, Some(u), Ok, Ok, reply) ==
              Step(f.(loading := false, error := ""),
                   [ Reauthenticate(u.email, f.currentPassword), UpdatePassword(f.newPassword),
                     SendConfirmation(u.email, MailSubject, MailMessage, report) ]
                   + (if report.NotSent? then [Alert(MailWarning)] else []) + [Alert(SuccessAlert)])
  {
  }

  /** A wrong current password stops everything after the re-authentication. */
  lemma WrongPasswordStopsEarly(f: Form, u: User, update: Outcome, reply: HttpReply)
    ensures ChangePassword(f, Some(u), Fail, update, reply) ==
              Step(f.(loading := false, error := FailureMessage), [Reauthenticate(u.email, f.currentPassword)])
  {
  }

  /** The role shown by `fetchUserRole`: the document's role, or "" when the
      field is empty or missing; a missing document or a failed read leaves
      the role as it was. */
  function FetchUserRole(f: Form, user: Option<User>, read: Read): (r: Step)
    ensures user.None? ==> r == Step(f, [])
    ensures user.Some? ==> r.trace == [ReadRole(user.value.uid)]
    ensures r.after.(role := f.role) == f
    ensures user.Some? && read.Found? ==> r.after.role == OrElse(Field(read.doc, "role"), "")
    ensures user.None? || !read.Found? ==> r.after.role == f.role
  {
    if user.None? then Step(f, [])
    else if read.Found? then Step(f.(role := OrElse(Field(read.doc, "role"), "")), [ReadRole(user.value.uid)])
    else Step(f, [ReadRole(user.value.uid)])
  }

  /** `handleBack`: only the "admin" role goes to the admin account page. */
  function HandleBack(role: string): (r: Effect)
    ensures r.Navigate?
    ensures r.route == AdminHome <==> role == "admin"
    ensures r.route == UserHome <==> role != "admin"
  {
    if role == "admin" then Navigate(AdminHome) else Navigate(UserHome)
  }

  /** A user whose document has no role, or who has no document, goes back to
      the dashboard; a stored "admin" role goes back to the admin page. */
  lemma BackAfterRoleLoad(u: User, read: Read)
    ensures var f := FetchUserRole(InitialForm, Some(u), read).after;
            HandleBack(f.role) == Navigate(if read.Found? && Field(read.doc, "role") == Some("admin") then AdminHome else UserHome)
  {
  }
}

=== FILE: profile.dfy ===
/** The edit-profile screen: loading the stored photo, saving a new picture
    and saving the display name. Each save writes one field of the user's
    document with merge semantics. */
module Profile {
  import opened Common
  import opened ImageSize

  const ImageKey := "profileImage"
  const NameKey := "displayName"

  const ImageSavedAlert := "Profile image updated!"
  const ImageFailedAlert := "Failed to upload image."
  const LoginRequiredAlert := "You must be logged in to update your profile."
  const ProfileSavedAlert := "Profile updated successfully!"
  const ProfileFailedAlert := "Failed to update profile."

  /** The signed-in account as the auth provider reports it. */
  datatype AuthUser = AuthUser(uid: string, displayName: Option<string>)

  /** The screen's state: the name field, the shown photo, the upload flag. */
  datatype Form = Form(displayName: string, photoURL: string, uploading: bool)

  const InitialForm := Form("", "", false)

  /** The file input after a change: no file, a file that could not be read
      or decoded as a picture, or a picture of `size` whose redrawn canvas
      encodes to the data URL `jpeg`. */
  datatype Picked = NoFile | Unreadable | Picture(size: Size, jpeg: string)

  datatype Effect =
    | ReadProfile(uid: string)
    | DrawCanvas(size: Size)
    | UpdateAuthProfile(displayName: string)
    | MergeWrite(uid: string, fields: Doc)
    | Alert(message: string)
    | Navigate(route: string)

  datatype Step = Step(after: Form, trace: seq<Effect>)

  /** A merge write: the written fields replace theirs, every other field of
      the stored document is kept, and a missing document is created. */
  function Merge(stored: Option<Doc>, fields: Doc): (r: Doc)
    ensures r.Keys == fields.Keys + (if stored.Some? then stored.value.Keys else {})
    ensures forall k | k in fields :: r[k] == fields[k]
    ensures stored.Some? ==> forall k | k in stored.value && k !in fields :: r[k] == stored.value[k]
  {
    if stored.Some? then stored.value + fields else fields
  }

  /** The user's document after the merge writes of a trace aimed at `uid`. */
  function ApplyWrites(stored: Option<Doc>, uid: string, trace: seq<Effect>): Option<Doc>
    decreases |trace|
  {
    if trace == [] then stored
    else
      var next := if trace[0].MergeWrite? && trace[0].uid == uid then Some(Merge(stored, trace[0].fields)) else stored;
      ApplyWrites(next, uid, trace[1..])
  }

  /** `fetchUserProfile`: with a user, read their document and show its
      picture (or nothing when the field is empty); a missing document or a
      failed read leaves the photo as it was. */
  function FetchUserProfile(f: Form, user: Option<AuthUser>, read: Read): (r: Step)
    ensures user.None? ==> r == Step(f, [])
    ensures user.Some? ==> r.trace == [ReadProfile(user.value.uid)]
    ensures r.after.displayName == f.displayName && r.after.uploading == f.uploading
    ensures user.Some? && read.Found? && ImageKey in read.doc && read.doc[ImageKey] != "" ==>
              r.after.photoURL == read.doc[ImageKey]
    ensures user.Some? && read.Found? && (ImageKey !in read.doc || read.doc[ImageKey] == "") ==>
              r.after.photoURL == ""
    ensures user.None? || !read.Found? ==> r.after.photoURL == f.photoURL
  {
    if user.None? then Step(f, [])
    else
      var photo := if read.Found? then OrElse(Field(read.doc, ImageKey), "") else f.photoURL;
      Step(f.(photoURL := photo), [ReadProfile(user.value.uid)])
  }

  /** The screen's mount: without a user it sends the visitor to sign in;
      with one it fills the name field from the account and loads the photo. */
  function Mount(f: Form, user: Option<AuthUser>, read: Read): (r: Step)
    ensures user.None? ==> r == Step(f, [Navigate("/signin")])
    ensures user.Some? ==> r.after.displayName == OrElse(user.value.displayName, "")
    ensures user.Some? ==> r.trace == [ReadProfile(user.value.uid)]
    ensures user.Some? ==> r.after.uploading == f.uploading
    ensures user.Some? && read.Found? && ImageKey in read.doc && read.doc[ImageKey] != "" ==>
              r.after.photoURL == read.doc[ImageKey]
    ensures user.Some? && read.Found? && (ImageKey !in read.doc || read.doc[ImageKey] == "") ==>
              r.after.photoURL == ""
    ensures user.Some? && !read.Found? ==> r.after.photoURL == f.photoURL
  {
    if user.None? then Step(f, [Navigate("/signin")])
    else FetchUserProfile(f.(displayName := OrElse(user.value.displayName, "")), user, read)
  }

  /** Mounting the fresh screen: the shown photo is exactly the stored
      picture, and "" whenever there is none to show (no user, no document,
      a failed read, or an empty field); the upload flag starts clear. */
  lemma MountFromStart(user: Option<AuthUser>, read: Read)
    ensures var r := Mount(InitialForm, user, read);
            && r.after.photoURL == (if user.Some? && read.Found? then OrElse(Field(read.doc, ImageKey), "") else "")
            && !r.after.uploading
  {
  }

  /** `handleImageChange`: nothing happens without a file or a user.
      Otherwise the picture is redrawn at the capped size, the data URL is
      merge-written as the only field, and on success it becomes the shown
      photo; the upload flag is clear at the end of every path. */
  function HandleImageChange(f: Form, user: Option<AuthUser>, picked: Picked, write: Outcome): (r: Step)
    ensures picked.NoFile? || user.None? ==> r == Step(f, [])
    ensures !picked.NoFile? && user.Some? ==> !r.after.uploading && |r.trace| >= 1
    ensures user.Some? && picked.Picture? ==>
              DrawCanvas(Fit(picked.size, ProfileCap, ProfileCap)) in r.trace
              && MergeWrite(user.value.uid, map[ImageKey := picked.jpeg]) in r.trace
    ensures forall e | e in r.trace && e.MergeWrite? ::
              user.Some? && picked.Picture? && e == MergeWrite(user.value.uid, map[ImageKey := picked.jpeg])
    ensures forall e | e in r.trace && e.DrawCanvas? ::
              picked.Picture? && e.size == Fit(picked.size, ProfileCap, ProfileCap)
              && e.size.width <= ProfileCap && e.size.height <= ProfileCap
    ensures Precedes(r.trace, (e: Effect) => e.DrawCanvas?, (e: Effect) => e.MergeWrite?)
    ensures r.after.photoURL == (if user.Some? && picked.Picture? && write.Ok? then picked.jpeg else f.photoURL)
    ensures r.after.displayName == f.displayName
    ensures Alert(ImageSavedAlert) in r.trace <==> user.Some? && picked.Picture? && write.Ok?
    ensures !picked.NoFile? && user.Some? ==>
              r.trace[|r.trace| - 1] ==
                Alert(if picked.Picture? && write.Ok? then ImageSavedAlert else ImageFailedAlert)
  {
    if picked.NoFile? || user.None? then Step(f, [])
    else if picked.Unreadable? then Step(f.(uploading := false), [Alert(ImageFailedAlert)])
    else
      var size := Fit(picked.size, ProfileCap, ProfileCap);
      FitWithinSquareCap(picked.size, ProfileCap);
      var ok := write.Ok?;
      var trace := [DrawCanvas(size), MergeWrite(user.value.uid, map[ImageKey := picked.jpeg]),
                    Alert(if ok then ImageSavedAlert else ImageFailedAlert)];
      assert trace[0].DrawCanvas?;
      Step(f.(photoURL := if ok then picked.jpeg else f.photoURL, uploading := false), trace)
  }

  /** `handleSave`: without a user only an alert; otherwise the auth profile
      is updated first and then the name is merge-written as the only field.
      The dashboard is opened only when both calls succeed. */
  function HandleSave(f: Form, user: Option<AuthUser>, auth: Outcome, write: Outcome): (r: Step)
    ensures r.after == f
    ensures user.None? ==> r.trace == [Alert(LoginRequiredAlert)]
    ensures user.Some? ==> UpdateAuthProfile(f.displayName) in r.trace
    ensures user.Some? && auth.Ok? ==> MergeWrite(user.value.uid, map[NameKey := f.displayName]) in r.trace
    ensures forall e | e in r.trace && e.MergeWrite? ::
              user.Some? && auth.Ok? && e == MergeWrite(user.value.uid, map[NameKey := f.displayName])
    ensures forall e | e in r.trace && e.UpdateAuthProfile? :: user.Some? && e.displayName == f.displayName
    ensures Precedes(r.trace, (e: Effect) => e.UpdateAuthProfile?, (e: Effect) => e.MergeWrite?)
    ensures Occurs(r.trace, (e: Effect) => e.Navigate?) <==> user.Some? && auth.Ok? && write.Ok?
    ensures Alert(ProfileSavedAlert) in r.trace <==> user.Some? && auth.Ok? && write.Ok?
    ensures forall e | e in r.trace && e.Navigate? :: e.route == "/dashboard"
    ensures user.Some? && !(auth.Ok? && write.Ok?) ==>
              |r.trace| >= 2 && r.trace[|r.trace| - 1] == Alert(ProfileFailedAlert)
  {
    if user.None? then Step(f, [Alert(LoginRequiredAlert)])
    else
      var updated := UpdateAuthProfile(f.displayName);
      if auth.Fail? then Step(f, [updated, Alert(ProfileFailedAlert)])
      else
        var stored := MergeWrite(user.value.uid, map[NameKey := f.displayName]);
        if write.Fail? then
          var trace := [updated, stored, Alert(ProfileFailedAlert)];
          assert trace[0].UpdateAuthProfile?;
          Step(f, trace)
        else
          var trace := [updated, stored, Alert(ProfileSavedAlert), Navigate("/dashboard")];
          assert trace[0].UpdateAuthProfile? && trace[3].Navigate?;
          Step(f, trace)
  }

  /** Saving the name and then a picture keeps both: the document ends with
      the new name and the new picture, and every other field as before. */
  lemma SavesDoNotClobber(f: Form, u: AuthUser, stored: Option<Doc>, picked: Picked)
    requires picked.Picture?
    ensures var t := HandleSave(f, Some(u), Ok, Ok).trace + HandleImageChange(f, Some(u), picked, Ok).trace;
            var d := ApplyWrites(stored, u.uid, t);
            && d.Some?
            && NameKey in d.value && d.value[NameKey] == f.displayName
            && ImageKey in d.value && d.value[ImageKey] == picked.jpeg
            && (stored.Some? ==> forall k | k in stored.value && k != NameKey && k != ImageKey ::
                                   k in d.value && d.value[k] == stored.value[k])
  {
    var s := HandleSave(f, Some(u), Ok, Ok).trace;
    var i := HandleImageChange(f, Some(u), picked, Ok).trace;
    var named := Merge(stored, map[NameKey := f.displayName]);
    ApplyWritesAppend(stored, u.uid, s, i);
    SaveWrites(f, u, stored);
    ImageWrites(f, u, Some(named), picked);
    assert ApplyWrites(stored, u.uid, s + i) == Some(Merge(Some(named), map[ImageKey := picked.jpeg]));
    MergeNameThenImage(stored, f.displayName, picked.jpeg);
  }

  /** Merging the name and then the picture keeps both and every other field. */
  lemma MergeNameThenImage(stored: Option<Doc>, name: string, jpeg: string)
    ensures var d := Merge(Some(Merge(stored, map[NameKey := name])), map[ImageKey := jpeg]);
            && NameKey in d && d[NameKey] == name
            && ImageKey in d && d[ImageKey] == jpeg
            && (stored.Some? ==> forall k | k in stored.value && k != NameKey && k != ImageKey ::
                                   k in d && d[k] == stored.value[k])
  {
  }

  /** A successful name save merges exactly the name into the user's document. */
  lemma SaveWrites(f: Form, u: AuthUser, stored: Option<Doc>)
    ensures ApplyWrites(stored, u.uid, HandleSave(f, Some(u), Ok, Ok).trace) ==
              Some(Merge(stored, map[NameKey := f.displayName]))
  {
    var t := HandleSave(f, Some(u), Ok, Ok).trace;
    assert t[1..][1..] == [Alert(ProfileSavedAlert), Navigate("/dashboard")];
    ApplyWritesNoMerge(Some(Merge(stored, map[NameKey := f.displayName])), u.uid, t[1..][1..]);
  }

  /** A successful picture save merges exactly the picture into the user's document. */
  lemma ImageWrites(f: Form, u: AuthUser, stored: Option<Doc>, picked: Picked)
    requires picked.Picture?
    ensures ApplyWrites(stored, u.uid, HandleImageChange(f, Some(u), picked, Ok).trace) ==
              Some(Merge(stored, map[ImageKey := picked.jpeg]))
  {
    var t := HandleImageChange(f, Some(u), picked, Ok).trace;
    assert t[1..][1..] == [Alert(ImageSavedAlert)];
    ApplyWritesNoMerge(Some(Merge(stored, map[ImageKey := picked.jpeg])), u.uid, t[1..][1..]);
  }

  lemma {:induction false} ApplyWritesAppend(stored: Option<Doc>, uid: string, a: seq<Effect>, b: seq<Effect>)
    ensures ApplyWrites(stored, uid, a + b) == ApplyWrites(ApplyWrites(stored, uid, a), uid, b)
    decreases |a|
  {
    if a != [] {
      var next := if a[0].MergeWrite? && a[0].uid == uid then Some(Merge(stored, a[0].fields)) else stored;
      assert (a + b)[1..] == a[1..] + b;
      ApplyWritesAppend(next, uid, a[1..], b);
    } else {
      assert a + b == b;
    }
  }

  lemma {:induction false} ApplyWritesNoMerge(stored: Option<Doc>, uid: string, t: seq<Effect>)
    requires forall e | e in t :: !e.MergeWrite?
    ensures ApplyWrites(stored, uid, t) == stored
  {
    if t != [] {
      assert t[0] in t;
      ApplyWritesNoMerge(stored, uid, t[1..]);
    }
  }

  /** A picture that was saved is the photo the screen shows when it is
      opened again: reading back the merged document yields the same data URL. */
  lemma ImageRoundTrip(f: Form, g: Form, u: AuthUser, stored: Option<Doc>, picked: Picked)
    requires picked.Picture? && picked.jpeg != ""
    ensures var t := HandleImageChange(f, Some(u), picked, Ok).trace;
            var d := ApplyWrites(stored, u.uid, t);
            d.Some? && FetchUserProfile(g, Some(u), Found(d.value)).after.photoURL == picked.jpeg
  {
    ImageWrites(f, u, stored, picked);
  }
}

=== FILE: query.dfy ===
/** The listing query of the review dashboard: the controls above the table,
    the query built from them, which stored instants it selects, and the
    sort-order toggle. Instants are milliseconds; day `d` starts at
    `DayStart(d)` (the local time-zone offset is not modelled). */
module BookingQuery {
  import opened Common

  const DayLength: int := 86_400_000

  function DayStart(d: int): int
  {
    d * DayLength
  }

  /** The day an instant falls in (floor division: `/` on `int` is Euclidean). */
  function DayOf(t: int): int
  {
    t / DayLength
  }

  /** The hall drop-down and the optional picked day (a day number). */
  datatype Filter = Filter(hall: string, date: Option<int>)

  /** Everything the admin can set above the table. */
  datatype Controls = Controls(searchQuery: string, filter: Filter, sortOrder: string)

  /** The state the page starts in: no search, no filter, newest first. */
  const InitialControls := Controls("", Filter("", None), "desc")

  datatype Op = AtLeast | Below

  /** A `where(field, op, bound)` constraint on a stored instant. */
  datatype Clause = Where(field: string, op: Op, bound: int)

  datatype Query = Query(collection: string, clauses: seq<Clause>, orderField: string, direction: string)

  /** The query `fetchBookings` issues: always on "bookings", ordered by
      "date" in the chosen direction, constrained only when a day is picked. */
  function BuildQuery(c: Controls): (q: Query)
    ensures q.collection == "bookings" && q.orderField == "date" && q.direction == c.sortOrder
    ensures q.clauses == [] <==> c.filter.date.None?
  {
    if c.filter.date.Some? then
      var d := c.filter.date.value;
      Query("bookings",
            [Where("date", AtLeast, DayStart(d)), Where("date", Below, DayStart(d + 1))],
            "date", c.sortOrder)
    else
      Query("bookings", [], "date", c.sortOrder)
  }

  predicate Holds(w: Clause, t: int)
  {
    match w.op
    case AtLeast => t >= w.bound
    case Below => t < w.bound
  }

  /** A booking stored at instant `t` passes every clause of the query. */
  predicate Selects(q: Query, t: int)
  {
    forall w | w in q.clauses :: Holds(w, t)
  }

  /** A picked day yields the half-open window [start of the day, start of the
      next day) on `date`, which selects an instant iff it lies in that day;
      with no picked day nothing is constrained. The listing is always on the
      bookings collection, ordered by `date` in the chosen direction. */
  lemma {:induction false} QueryWindow(c: Controls, t: int)
    ensures BuildQuery(c).collection == "bookings"
    ensures BuildQuery(c).orderField == "date" && BuildQuery(c).direction == c.sortOrder
    ensures c.filter.date.None? ==> BuildQuery(c).clauses == []
    ensures c.filter.date.Some? ==>
              var d := c.filter.date.value;
              && (Selects(BuildQuery(c), t) <==> DayStart(d) <= t < DayStart(d + 1))
              && DayStart(d + 1) - DayStart(d) == DayLength
    ensures Selects(BuildQuery(c), t) <==> (c.filter.date.None? || DayOf(t) == c.filter.date.value)
  {
    if c.filter.date.Some? {
      var d := c.filter.date.value;
      var q := BuildQuery(c);
      assert q.clauses == [Where("date", AtLeast, DayStart(d)), Where("date", Below, DayStart(d + 1))];
      assert Selects(q, t) <==> Holds(q.clauses[0], t) && Holds(q.clauses[1], t);
      DayOfWindow(t, d);
    }
  }

  /** An instant lies in day `d`'s window iff its day is `d`. */
  lemma DayOfWindow(t: int, d: int)
    ensures DayStart(d) <= t < DayStart(d + 1) <==> DayOf(t) == d
  {
  }

  /** The hall drop-down and the search box never reach the query: controls
      that differ only in those build the same query. */
  lemma QueryIgnoresHallAndSearch(c: Controls, hall: string, search: string)
    ensures BuildQuery(Controls(search, Filter(hall, c.filter.date), c.sortOrder)) == BuildQuery(c)
  {
  }

  /** The sort button: "asc" becomes "desc", anything else becomes "asc". */
  function ToggleSortOrder(order: string): (r: string)
    ensures r == "asc" || r == "desc"
    ensures order == "asc" || order == "desc" ==> r != order
  {
    if order == "asc" then "desc" else "asc"
  }

  /** The button's label. */
  function SortLabel(order: string): string
  {
    if order == "asc" then "Ascending" else "Descending"
  }

  /** Toggling twice restores "asc" and "desc"; any other value settles on
      "desc" after two toggles; each toggle flips the label. */
  lemma ToggleTwice(order: string)
    ensures order == "asc" || order == "desc" ==> ToggleSortOrder(ToggleSortOrder(order)) == order
    ensures order != "asc" && order != "desc" ==> ToggleSortOrder(ToggleSortOrder(order)) == "desc"
    ensures SortLabel(ToggleSortOrder(order)) != SortLabel(order)
  {
  }

  /** A change to the controls above the table. */
  datatype ControlEvent = TypeSearch(text: string) | PickHall(hall: string) | PickDate(date: Option<int>) | ToggleSort

  /** The controls after an event, and whether the listing is fetched again.
      The page refetches whenever the filter object or the sort order is
      replaced; every hall or date pick replaces the filter object, a toggle
      always changes the order, and typing in the search box does neither. */
  function ApplyControl(c: Controls, e: ControlEvent): (r: (Controls, bool))
    ensures r.1 <==> !e.TypeSearch?
    ensures e.TypeSearch? ==> r.0.searchQuery == e.text
    ensures e.PickHall? ==> r.0.filter.hall == e.hall
    ensures e.PickDate? ==> r.0.filter.date == e.date
    ensures e.ToggleSort? ==> r.0.sortOrder == ToggleSortOrder(c.sortOrder)
    ensures !e.TypeSearch? ==> r.0.searchQuery == c.searchQuery
    ensures !e.ToggleSort? ==> r.0.sortOrder == c.sortOrder
    ensures e.TypeSearch? || e.ToggleSort? ==> r.0.filter == c.filter
    ensures e.PickHall? ==> r.0.filter.date == c.filter.date
    ensures e.PickDate? ==> r.0.filter.hall == c.filter.hall
  {
    match e
    case TypeSearch(s) => (c.(searchQuery := s), false)
    case PickHall(h) => (c.(filter := c.filter.(hall := h)), true)
    case PickDate(d) => (c.(filter := c.filter.(date := d)), true)
    case ToggleSort => (c.(sortOrder := ToggleSortOrder(c.sortOrder)), true)
  }

  /** Only search typing skips the refetch, and only a date pick or a sort
      toggle can change the query: typing and hall picks leave it as it was. */
  lemma ControlEffects(c: Controls, e: ControlEvent)
    ensures ApplyControl(c, e).1 <==> !e.TypeSearch?
    ensures (e.TypeSearch? || e.PickHall?) ==> BuildQuery(ApplyControl(c, e).0) == BuildQuery(c)
    ensures e.ToggleSort? ==> BuildQuery(ApplyControl(c, e).0) != BuildQuery(c)
    ensures e.PickDate? ==> (BuildQuery(ApplyControl(c, e).0) == BuildQuery(c) <==> e.date == c.filter.date)
  {
  }
}

=== FILE: review.dfy ===
/** The handlers of the booking review dashboard, each a function from the
    outcomes of its external calls to the page state afterwards and the trace
    of effects it produced in order. Console logging is not traced. */
module Review {
  import opened Common
  import opened Bookings
  import opened BookingQuery

  /** The state of the dashboard page. */
  datatype Dashboard = Dashboard(
    bookings: seq<Booking>,
    loading: bool,
    verifying: bool,
    controls: Controls,
    selectedImage: Option<string>)

  const InitialDashboard := Dashboard([], true, false, InitialControls, None)

  /** The five values handed to the approval e-mail endpoint; the Reject
      button passes none of them. */
  datatype MailRequest = MailRequest(
    userInfo: Option<Booking>,
    hall: Option<string>,
    date: Option<string>,
    startTime: Option<string>,
    endTime: Option<string>)

  /** The arguments of one `updateBookingStatus` call. */
  datatype StatusCall = StatusCall(bookingId: string, newStatus: string, mail: MailRequest)

  function ApproveCall(b: Booking): StatusCall
  {
    StatusCall(b.id, Approved, MailRequest(Some(b), Some(b.hall), Some(b.date), Some(b.startTime), Some(b.endTime)))
  }

  function RejectCall(b: Booking): StatusCall
  {
    StatusCall(b.id, Rejected, MailRequest(None, None, None, None, None))
  }

  datatype Effect =
    | RunQuery(query: Query)
    | WriteBookingField(id: string, field: string, value: string)
    | UpdateLocalStatus(id: string, status: string)
    | SendApprovalMail(request: MailRequest, report: MailReport)
    | Alert(message: string)

  datatype Step = Step(after: Dashboard, trace: seq<Effect>)

  /** What `getDocs` produced: the mapped list, or a rejection. */
  datatype Fetch = Fetched(list: seq<Booking>) | FetchFailed

  /** `fetchBookings`: one query built from the filter and sort order; its
      rows replace the list, a failure leaves the previous list in place, and
      loading ends either way. */
  function FetchBookings(d: Dashboard, result: Fetch): (r: Step)
    ensures r.trace == [RunQuery(BuildQuery(d.controls))]
    ensures !r.after.loading
    ensures result.Fetched? ==> r.after.bookings == result.list
    ensures result.FetchFailed? ==> r.after.bookings == d.bookings
    ensures r.after.controls == d.controls && r.after.verifying == d.verifying
    ensures r.after.selectedImage == d.selectedImage
  {
    var list := if result.Fetched? then result.list else d.bookings;
    Step(d.(bookings := list, loading := false), [RunQuery(BuildQuery(d.controls))])
  }

  /** The page opens with no filter and newest first, so its first fetch runs
      the unfiltered query in descending date order; a failed first fetch
      leaves the table empty, and no slip is selected either way. */
  lemma FirstFetch(result: Fetch)
    ensures FetchBookings(InitialDashboard, result).trace == [RunQuery(Query("bookings", [], "date", "desc"))]
    ensures result.FetchFailed? ==> FetchBookings(InitialDashboard, result).after.bookings == []
    ensures FetchBookings(InitialDashboard, result).after.selectedImage.None?
  {
  }

  /** `sendBookingEmail` reads the reply text, takes an empty body as
      `{message: "No response body"}`, parses anything else as JSON (which
      may throw), and throws on a non-ok status with the body's message or
      "Unknown error occurred". Whatever happens is caught inside. */
  function BookingMailReport(reply: HttpReply): (r: MailReport)
    ensures r.Sent? ==> reply.Reply? && reply.ok
    ensures reply.NetworkError? ==> r == NotSent(None)
  {
    match reply
    case NetworkError => NotSent(None)
    case Reply(ok, body) =>
      match body
      case Malformed => NotSent(None)
      case EmptyBody => if ok then Sent else NotSent(Some("No response body"))
      case Json(m) => if ok then Sent else NotSent(Some(OrElse(m, "Unknown error occurred")))
  }

  /** The approval e-mail counts as delivered exactly for an ok reply with a
      readable body, and a rejection by the endpoint carries a non-empty
      reason. */
  lemma BookingMailReportCases(reply: HttpReply)
    ensures BookingMailReport(reply).Sent? <==> reply.Reply? && reply.ok && !reply.body.Malformed?
    ensures BookingMailReport(reply).NotSent? && reply.Reply? && !reply.ok && !reply.body.Malformed? ==>
              BookingMailReport(reply).reason.Some? && BookingMailReport(reply).reason.value != ""
  {
  }

  /** `updateBookingStatus`: write the status to the store; on success map it
      over the local list and, for "Approved" only, send the approval e-mail,
      whose report the trace records. The e-mail helper swallows its own
      failures, so `reply` changes nothing else; a failed write skips both
      later steps. */
  function UpdateBookingStatus(d: Dashboard, call: StatusCall, write: Outcome, reply: HttpReply): (r: Step)
    ensures |r.trace| >= 1 && r.trace[0] == WriteBookingField(call.bookingId, "status", call.newStatus)
    ensures write.Fail? ==> r.after == d && r.trace == [r.trace[0]]
    ensures write.Ok? ==> r.after == d.(bookings := SetStatus(d.bookings, call.bookingId, call.newStatus))
    ensures write.Ok? ==> |r.trace| >= 2 && r.trace[1] == UpdateLocalStatus(call.bookingId, call.newStatus)
    ensures Occurs(r.trace, (e: Effect) => e.SendApprovalMail?) <==> write.Ok? && call.newStatus == Approved
    ensures Precedes(r.trace, (e: Effect) => e.WriteBookingField?, (e: Effect) => e.UpdateLocalStatus?)
    ensures Precedes(r.trace, (e: Effect) => e.UpdateLocalStatus?, (e: Effect) => e.SendApprovalMail?)
    ensures forall e | e in r.trace :: !e.Alert? && !e.RunQuery?
  {
    var stored := WriteBookingField(call.bookingId, "status", call.newStatus);
    if write.Fail? then Step(d, [stored])
    else
      var local := UpdateLocalStatus(call.bookingId, call.newStatus);
      var after := d.(bookings := SetStatus(d.bookings, call.bookingId, call.newStatus));
      if call.newStatus == Approved then
        var trace := [stored, local, SendApprovalMail(call.mail, BookingMailReport(reply))];
        assert trace[2].SendApprovalMail?;
        Step(after, trace)
      else Step(after, [stored, local])
  }

  /** Whatever the e-mail endpoint answers, an approval that reached the store
      leaves the same page state, and the approved booking reads back as
      "Approved" with its other fields intact. */
  lemma MailFailureKeepsApproval(d: Dashboard, b: Booking, reply1: HttpReply, reply2: HttpReply)
    requires b in d.bookings
    ensures UpdateBookingStatus(d, ApproveCall(b), Ok, reply1).after ==
            UpdateBookingStatus(d, ApproveCall(b), Ok, reply2).after
    ensures var list := UpdateBookingStatus(d, ApproveCall(b), Ok, reply1).after.bookings;
            Find(list, b.id).Some? && Find(list, b.id).value.status == Some(Approved)
            && Find(list, b.id).value.(status := Find(d.bookings, b.id).value.status) == Find(d.bookings, b.id).value
  {
    FindAfterSetStatus(d.bookings, b.id, Approved, b.id);
  }

  /** Approving a listed booking writes the status, updates the row, and makes
      exactly one e-mail attempt carrying the booking and its hall, date and
      times; rejecting writes and updates but never mails. */
  lemma ApproveAndRejectTraces(d: Dashboard, b: Booking, reply: HttpReply)
    ensures UpdateBookingStatus(d, ApproveCall(b), Ok, reply).trace ==
              [ WriteBookingField(b.id, "status", "Approved"),
                UpdateLocalStatus(b.id, "Approved"),
                SendApprovalMail(MailRequest(Some(b), Some(b.hall), Some(b.date), Some(b.startTime), Some(b.endTime)),
                                 BookingMailReport(reply)) ]
    ensures UpdateBookingStatus(d, RejectCall(b), Ok, reply).trace ==
              [WriteBookingField(b.id, "status", "Rejected"), UpdateLocalStatus(b.id, "Rejected")]
  {
  }

  /** Repeating a successful status update changes nothing further. */
  lemma StatusUpdateIdempotent(d: Dashboard, call: StatusCall, reply1: HttpReply, reply2: HttpReply)
    ensures var once := UpdateBookingStatus(d, call, Ok, reply1).after;
            UpdateBookingStatus(once, call, Ok, reply2).after == once
  {
  }

  const PaymentFailedAlert := "Failed to verify payment."

  /** The alert after a successful payment-status write: one of two fixed
      messages. */
  function PaymentAlert(status: string): (r: string)
    ensures r == "Payment has been approved." || r == "Payment has been rejected."
  {
    "Payment has been " + (if status == "verified" then "approved" else "rejected") + "."
  }

  /** `handlePaymentVerification`: write `paymentStatus` to the store and
      alert; it never touches the local list or the booking status, and the
      verifying flag is cleared on every path. */
  function HandlePaymentVerification(d: Dashboard, bookingId: string, status: string, write: Outcome): (r: Step)
    ensures r.after == d.(verifying := false)
    ensures |r.trace| == 2 && r.trace[0] == WriteBookingField(bookingId, "paymentStatus", status)
    ensures r.trace[1] == Alert(if write.Ok? then PaymentAlert(status) else PaymentFailedAlert)
  {
    var stored := WriteBookingField(bookingId, "paymentStatus", status);
    if write.Ok? then Step(d.(verifying := false), [stored, Alert(PaymentAlert(status))])
    else Step(d.(verifying := false), [stored, Alert(PaymentFailedAlert)])
  }

  /** The success alert says "approved" exactly for "verified"; every other
      status, not only "rejected", is announced as rejected. */
  lemma PaymentAlertChoice(status: string)
    ensures PaymentAlert(status) == "Payment has been approved." <==> status == "verified"
    ensures status != "verified" ==> PaymentAlert(status) == "Payment has been rejected."
  {
    if status != "verified" {
      assert PaymentAlert(status)[17] == 'r' != "Payment has been approved."[17];
    }
  }

  /** Clicking a slip: a thumbnail opens the full-view modal on that slip; a
      PDF link downloads and leaves the page state alone. */
  function ClickSlip(d: Dashboard, b: Booking): (r: Dashboard)
    ensures r.(selectedImage := d.selectedImage) == d
    ensures r.selectedImage != d.selectedImage ==> r.selectedImage == b.paymentSlip && Truthy(b.paymentSlip)
  {
    match SlipCell(b)
    case Thumbnail(src) => d.(selectedImage := Some(src))
    case _ => d
  }

  /** Clicking the modal backdrop closes it and changes nothing else. */
  function CloseModal(d: Dashboard): (r: Dashboard)
    ensures r.selectedImage.None?
    ensures r.(selectedImage := d.selectedImage) == d
  {
    d.(selectedImage := None)
  }

  /** The modal is rendered in the row of `b` when `b` has a slip equal to
      the selected one. */
  predicate ModalShownFor(d: Dashboard, b: Booking)
  {
    Truthy(b.paymentSlip) && d.selectedImage == b.paymentSlip
  }

  /** After clicking an image slip the modal shows in exactly the rows holding
      that same slip, so one slip is viewed at a time; clicking a PDF slip
      changes nothing; closing hides the modal everywhere. */
  lemma SlipModal(d: Dashboard, b: Booking, other: Booking)
    ensures SlipCell(b).Thumbnail? ==> ModalShownFor(ClickSlip(d, b), b)
    ensures SlipCell(b).Thumbnail? ==>
              (ModalShownFor(ClickSlip(d, b), other) <==> other.paymentSlip == b.paymentSlip)
    ensures !SlipCell(b).Thumbnail? ==> ClickSlip(d, b) == d
    ensures !ModalShownFor(CloseModal(d), other)
    ensures ModalShownFor(d, b) && ModalShownFor(d, other) ==> b.paymentSlip == other.paymentSlip
  {
  }
}
